=== FILE: README.md ===
# HelpScout endpoint of the EDD HelpScout integration, modelled in Dafny

The repository connects a HelpScout help desk with an Easy Digital Downloads (EDD) shop.
When an agent opens a ticket, HelpScout calls the endpoint. The endpoint answers with a
JSON envelope `{"html": ...}` holding the customer's orders, licenses and activated sites.
This project models that endpoint (`includes/class-endpoint.php`) as pure functions over
immutable datatypes, and proves what the code promises:

- **Validation** (`Payloads`). A payload without `customer.email` or `customer.emails` is refused, even in dummy mode. Dummy mode accepts any other payload. A live request is accepted only when the signature header is present and the signature check accepts it.
- **License-key sniffing** (`CustomerEmails`). The last word of the ticket subject is looked up as a license key only when it is exactly 32 characters long. When the subject has no space, `strrpos` returns `false`, and `false + 1` drops the subject's first character. That quirk is kept.
- **Email aggregation** (`CustomerEmails`, `Seqs`). The sources are merged in a fixed order: license-key owner, HelpScout, store profile. `array_unique` then keeps first occurrences, the filter has the last word, and an empty result answers "No customer email given.".
- **Payment query** (`Payments`). A non-empty filter result wins. Otherwise the SQL statement has exactly one `%s` placeholder per address: an `IN(...)` list for several addresses, a single `= '%s'` for one.
- **License grouping and sites** (`Licenses`). Per download, at most one parent license: the first one of the download. Later ones and licenses pointing at the parent become children, each position once. Site URLs get `https://` unless they contain `://`, and normalising is idempotent.
- **Payment method** (`Gateways`). PayPal and Stripe link to the transaction named by the first note matching the anchored pattern. Manual purchases read "Manual". Anything else shows the gateway name.
- **Orders, page and pipeline** (`Endpoint`). One order per payment. Only `publish` orders are completed and get a resend-receipt link. The request short-circuits on each failure.

Code outside the endpoint is passed in as function-typed fields of `Endpoint.Externals`. That covers request signing, EDD and licensing lookups, the two `apply_filters` hooks, the SQL query, `esc_attr` and the templates. Environment switches are fields of `Endpoint.Config`: the dummy-data constants, the signature header, `class_exists`/`function_exists`, the licensing version gate and the table names.

Some behaviours of the code that a reader might not expect:
- Addresses are compared exactly; they are not lower-cased.
- HelpScout's `emails` list is used only when it has more than one entry. Otherwise `email` is used.
- Profile emails are added only when the profile has more than one.
- Licenses are grouped per download of each payment, not across all of a customer's licenses.
- Only PayPal, PayPal Express, Stripe and manual purchases get a special label. There is no hook for other gateways.
- Each rendered order row goes through the single-quoted `str_replace('\t', ...)` of line 409. That removes the text backslash-t and keeps tab characters. The pipeline models this as written. The tab-free rendering that was evidently intended is modelled beside it (see "## Findings").

## Model

| member | source | states |
|---|---|---|
| Payloads.ParseData | includes/class-endpoint.php:66-100 | in dummy mode the payload is the fixture: `email` is the configured address or user@example.com, `emails` is a one-entry list of that address, and the subject is "I need help using your plugin"; otherwise it is the decoded body unchanged |
| Payloads.Validate | includes/class-endpoint.php:110-126 | no customer email field means refusal, whatever the mode or signature; with one, dummy mode accepts, and a live request is accepted exactly when the header is present and the signature check accepts it |
| Payloads.FixtureAlwaysValidates | includes/class-endpoint.php:71-123 | the dummy-mode fixture passes validation for every header and every signature check |
| CustomerEmails.LastSpace | includes/class-endpoint.php:161 | `strrpos` finds a space with no space after it, or reports that the subject has no space |
| CustomerEmails.LastWord | includes/class-endpoint.php:160-161 | the word is a suffix of the subject; with a space it is the space-free suffix right after the last space; without one it is the subject minus its first character |
| CustomerEmails.KeyAfterSpaceIsLastWord | includes/class-endpoint.php:161-165 | a space-free key written after a space in the subject is exactly the last word |
| CustomerEmails.BareKeySubjectIsNotLookedUp | includes/class-endpoint.php:161-165 | a subject that is only a 32-character key yields a 31-character word, so no lookup happens |
| CustomerEmails.LicenseKeyEmails | includes/class-endpoint.php:154-178 | at most one address; exactly one precisely when licensing is active, a subject is set, its last word has 32 characters and the key owner's email is not PHP-empty; and it is that email |
| CustomerEmails.GetEddCustomer | includes/class-endpoint.php:133-146 | a store profile is looked up exactly when the customer class exists and `customer.email` is set, and it is looked up by that address |
| CustomerEmails.HelpScoutEmails | includes/class-endpoint.php:195-199 | HelpScout gives several addresses exactly when `emails` is a list of more than one entry, and then exactly that list; a single address is always `email`; none only when `email` is unset |
| CustomerEmails.ProfileEmails | includes/class-endpoint.php:204-206 | the store profile never gives exactly one address; it gives any only when it has more than one, and then all of them |
| CustomerEmails.EmailSources | includes/class-endpoint.php:190-206 | the merged list is the license-key owner's address first, then HelpScout's addresses, then the profile's, each block kept whole and in order |
| CustomerEmails.GetCustomerEmails | includes/class-endpoint.php:185-224 | success exactly when the filter leaves a non-empty list of the de-duplicated, ordered sources, and then that list; otherwise the "No customer email given." message |
| CustomerEmails.UnfilteredEmailsAreDistinctAndOrdered | includes/class-endpoint.php:190-221 | without a filter the result has no duplicates, holds exactly the source addresses, keeps first-occurrence order, puts the license-key owner first, and fails exactly when no source gave an address |
| CustomerEmails.FixtureYieldsOnlyTheDummyAddress | includes/class-endpoint.php:71-211 | in dummy mode, with no filter and a profile of at most one address, the only customer address is the dummy one: the fixture's last word "plugin" triggers no key lookup, and its one-entry list falls back to `email` |
| CustomerEmails.SingleListEntryWithoutEmailIsIgnored | includes/class-endpoint.php:195-199 | a payload whose `emails` list has one entry and no `email` passes validation but contributes no address |
| Seqs.Unique | includes/class-endpoint.php:211 | `array_unique` leaves no duplicates, the same set of elements, and never more elements |
| Seqs.UniqueKeepsFirstOccurrenceOrder | includes/class-endpoint.php:211 | kept elements appear in the order of their first occurrence in the input |
| Seqs.UniqueKeepsHead | includes/class-endpoint.php:190-211 | the first source address stays first after de-duplication |
| Seqs.UniqueOfDistinct | includes/class-endpoint.php:211 | a list without duplicates is unchanged, so de-duplication is idempotent |
| Seqs.Put | includes/class-endpoint.php:342-352 | keyed assignment keeps existing entries in place, adds the key once, and preserves absence of duplicates |
| Payments.InClauseShape | includes/class-endpoint.php:260-262 | `rtrim(str_repeat("'%s', ", n), ", ")` is n quoted placeholders separated by ", " and holds exactly n placeholders |
| Payments.EmailConditionPlaceholders | includes/class-endpoint.php:260-265 | the email condition holds n placeholders for n > 1 addresses and one otherwise |
| Payments.PlaceholdersMatchEmails | includes/class-endpoint.php:254-269 | with `%`-free table names the statement holds as many placeholders as there are addresses, exactly when there is at least one address |
| Payments.QueryCustomerPayments | includes/class-endpoint.php:231-277 | a non-empty filter result is returned unchanged; otherwise the result of the statement built for the addresses, or nothing when the query gives no array |
| Licenses.CollectForDownloadSpec | includes/class-endpoint.php:335-346 | the first loop makes the first license of the download the parent and files every later license of that download as a child, without duplicates |
| Licenses.CollectChildrenSpec | includes/class-endpoint.php:349-355 | the second loop adds exactly the licenses whose non-empty parent is the parent's ID, keeping positions unique |
| Licenses.Bucket | includes/class-endpoint.php:328-355 | at most one parent, the first license of the download, or none exactly when no license belongs to it; children are the later licenses of the download plus the licenses pointing at the parent, each once; the parent is a child of itself only if it names itself as parent |
| Licenses.NormalizeSiteUrl | includes/class-endpoint.php:377 | the URL always contains "://"; a site already containing it is unchanged, any other gets "https://" in front |
| Licenses.NormalizeSiteUrlIdempotent | includes/class-endpoint.php:377 | normalising twice gives the same URL as normalising once |
| Licenses.SiteEntries | includes/class-endpoint.php:370-384 | exactly one entry per activated site, in order, with the normalised URL and a deactivation link signed over the license ID and the raw site |
| Licenses.DescribeLicense | includes/class-endpoint.php:360-384 | the license data carries the license's ID, key, limit, expiry flag and expiration; it is revoked exactly when the post status is "revoked"; it lists one entry per site, in order, with the normalised URL and the signed deactivation link |
| Gateways.NonSpaceRun | includes/class-endpoint.php:444 | the greedy `[^\s]+` run: a prefix without whitespace, followed by whitespace or the end |
| Gateways.MatchNote | includes/class-endpoint.php:444 | a match is a non-empty whitespace-free ID right after the anchored prefix and ends at whitespace or the end; there is no match exactly when the prefix is absent or followed by nothing or whitespace |
| Gateways.MatchNoteRoundTrip | includes/class-endpoint.php:444-445 | a note written as prefix, ID and nothing or whitespace yields exactly that ID |
| Gateways.FirstNoteMatch | includes/class-endpoint.php:442-449 | the result comes from the first matching note; there is none exactly when no note matches |
| Gateways.PaymentMethod | includes/class-endpoint.php:435-468 | PayPal and Stripe gateways link to the first matched transaction or else keep the gateway name; manual purchases read "Manual"; any other gateway is shown unchanged |
| Gateways.PayPalNoteGivesLink | includes/class-endpoint.php:440-449 | a PayPal payment whose first note is "PayPal Transaction ID: <id>" links to <id>, whatever later notes say |
| Gateways.StripeWithoutAnchoredNoteKeepsName | includes/class-endpoint.php:452-461 | a Stripe payment without a note starting with the prefix is labelled "stripe" |
| Endpoint.DescribeLicenses | includes/class-endpoint.php:358-391 | one license view per bucket position, in bucket order |
| Endpoint.DescribeDownload | includes/class-endpoint.php:328-392 | the download gets a parent license exactly when its bucket has a parent, and that license's data; its child licenses are the child bucket's licenses in order |
| Endpoint.DescribeDownloads | includes/class-endpoint.php:328-393 | every download of the payment is described, in order |
| Endpoint.PlainDownloads | includes/class-endpoint.php:320-323 | without licensing data each download is kept, in order, with no license |
| Endpoint.BuildOrder | includes/class-endpoint.php:296-397 | the order keeps the payment's ID, date and status; it is completed exactly for "publish", and only then carries the signed resend-receipt link; its amount and currency are the store's for that payment; it is never a renewal; it lists the payment's downloads in order, with licenses only when the licensing API is recent and the payment has licenses |
| Endpoint.BuildOrders | includes/class-endpoint.php:295-398 | one order per payment row, in the rows' order |
| Endpoint.NoPaymentsMessageNamesEveryEmail | includes/class-endpoint.php:288-292 | every address appears in bold in the "no payments" message |
| Endpoint.StripBackslashTMissesTabs | includes/class-endpoint.php:409 | the replacement as written keeps a tab character and turns the text "C:\temp" into "C:emp" |
| Endpoint.StripBackslashTRemovesPair | includes/class-endpoint.php:409 | the replacement as written cuts out every backslash-t pair and treats the text on each side of it on its own |
| Endpoint.StripBackslashT | includes/class-endpoint.php:409 | the replacement as written never lengthens the text, leaves text without a backslash-t pair unchanged (so a lone backslash or `t` stays), and keeps every character other than backslash and `t`, tabs included, as often as it occurs |
| Endpoint.StripTabs | includes/class-endpoint.php:409 | the corrected replacement leaves no tab, never lengthens the text, and leaves tab-free text unchanged |
| Endpoint.StripTabsAppend | includes/class-endpoint.php:409 | removing tabs distributes over concatenation, so every other character is kept in order |
| Endpoint.EveryOrderIsRendered | includes/class-endpoint.php:408-410 | the row of every order, after the replacement as written, appears in the concatenated rows |
| Endpoint.TabsSurviveRendering | includes/class-endpoint.php:408-410 | as written, a tab in any rendered order row is still on the page |
| Endpoint.RenderOrdersIntended | includes/class-endpoint.php:408-410 | the evidently intended rendering holds no tab character |
| Endpoint.RenderingsAgreeOnPlainRows | includes/class-endpoint.php:408-410 | when no row holds a tab or a backslash, the rendering as written and the intended one are the same |
| Endpoint.CustomerHeader | includes/class-endpoint.php:403-406 | the header is the rendered customer link whenever a store customer object was looked up, found or not, since the object is always truthy; it is empty only when no lookup happened |
| Endpoint.BuildResponseHtml | includes/class-endpoint.php:286-413 | without payments the page is the "no payments" message; otherwise it starts with the customer header and holds the row of every payment's order, after the replacement as written |
| Endpoint.HandleRequest | includes/class-endpoint.php:36-61 | an invalid request answers "Invalid signature" and an empty email list "No customer email given.", with no further processing; otherwise the answer is the "no payments" message when the payment lookup finds nothing, and else a page holding the row of every payment found, after the replacement as written |
| Endpoint.UnsignedLiveRequestIsRefused | includes/class-endpoint.php:120-125 | outside dummy mode a request without a signature header is refused whatever its body |
| Endpoint.DummyModeIgnoresSignature | includes/class-endpoint.php:120-123 | in dummy mode the answer is the same for every signature header and every signature check |

## Left out

- Reading `php://input`, `json_decode` and `$_SERVER` are left out: the model starts from the decoded payload, a dummy-mode flag and an optional header. A body that is not JSON is the payload with neither key.
- The `Request` class is not part of this model. Signature comparison and signed-URL construction are keyed hashing, so they are the `signatureEquals` and `signedUrl` parameters.
- Running SQL is left out. `$wpdb->prepare` substitution and escaping are not modelled; the query is the `runQuery` parameter, which takes the statement and the addresses.
- EDD and licensing lookups are parameters. That covers `EDD_Customer`, `edd_get_payment_*`, `get_licenses_of_purchase`, `is_expired` and the key -> license -> payment -> user-info chain. `version_compare(EDD_SL_VERSION, '3.6', '>')` is a boolean in `Config`.
- `apply_filters` hooks are one function each. Several registered callbacks are their composition.
- HTML templating is left out. `order_row` and `esc_attr` are the `renderOrder` and `escAttr` parameters. The customer link markup and its `admin_url` are folded into the `renderCustomer` parameter. A license's `view_url` is not built: only the license ID it would carry is kept.
- A purchased download keeps only its ID. The other cart fields that `edd_get_payment_meta_downloads` returns are not modelled, so the `renderOrder` parameter never sees them.
- Seqs.Unique: `array_unique` keeps the original array keys, so the list handed to the emails filter (line 217) and to `$wpdb->prepare` (line 269) can have gaps such as `[0 => a, 2 => b]`. The model renumbers. `count`, `join` and `vsprintf` do not see the difference.
- `respond` is reduced to the `Response(html)` value. Headers, `status_header`, output-buffer cleaning and `die` are HTTP plumbing.
- Status colours, subscriptions and upgrade offers are not in this file. They belong to templates and other add-ons.
- PHP loose comparison (`==`, `!=`, `switch`) is modelled as equality on `int` IDs and on strings. Numeric-string coercions are not modelled.
- `emails` entries and the `email` value are taken to be strings. Other JSON types in those fields are not modelled.
- CustomerEmails.LicenseKeyEmails: the 32-character test counts characters, while `strlen` counts bytes. The two agree on ASCII keys.
- CustomerEmails.LastWord: `substr` past the end is the empty string. Older PHP returns `false` there, which has length 0 as well.
- CustomerEmails.LastWord: positions count characters, while `strrpos` and `substr` count bytes. With no space in the subject, the model drops the first character where PHP drops the first byte. For a subject of "é" followed by 31 ASCII characters, PHP's word is 32 bytes long and is looked up, while the model's word is 31 characters long and is not. The two agree on ASCII subjects.
- Payments.PlaceholdersMatchEmails: assumes the table prefix holds no `%`. A `%` in the prefix would add placeholders of its own.

## Findings

| source | as written | input that shows it | evidently intended | confidence | as-written member | corrected member |
|---|---|---|---|---|---|---|
| includes/class-endpoint.php:409 | `str_replace( '\t', '', ... )` uses single quotes, so it removes the two characters backslash and `t`, not tab characters | a rendered order containing a tab keeps the tab; a product title "C:\temp" becomes "C:emp" (Endpoint.StripBackslashTMissesTabs, Endpoint.TabsSurviveRendering) | remove tab characters from each rendered order row | medium, not executed | Endpoint.RenderOrders | Endpoint.RenderOrdersIntended |

=== FILE: emails.dfy ===
/** Gathering the customer's email addresses (class-endpoint.php,
    `get_customer_emails_by_license_key`, `get_edd_customer` and
    `get_customer_emails`). */
module CustomerEmails {
  import opened Wrappers
  import opened Seqs
  import opened Strings
  import opened Payloads

  /** Length of a license key as generated by the licensing add-on. */
  const LicenseKeyLength: nat := 32

  /** Message sent back when no address is left after filtering. */
  const NoCustomerEmailMessage: string := "No customer email given."

  /** PHP's `empty()` on a string: the empty string and "0" are both empty. */
  predicate PhpEmpty(s: string) {
    s == "" || s == "0"
  }

  /** `strrpos($s, ' ')`: the position of the last space, `None` standing for `false`. */
  function LastSpace(s: string): (r: Option<nat>)
    ensures r.Some? ==> r.value < |s| && s[r.value] == ' ' && ' ' !in s[r.value + 1..]
    ensures r.None? ==> ' ' !in s
  {
    if |s| == 0 then None
    else if s[|s| - 1] == ' ' then Some(|s| - 1)
    else
      var r := LastSpace(s[..|s| - 1]);
      assert s == s[..|s| - 1] + [s[|s| - 1]];
      r
  }

  /** `substr($subject, strrpos($subject, ' ') + 1)`. When the subject has no
      space, `strrpos` yields `false`, `false + 1` is 1, and the subject loses
      its first character. */
  function LastWord(subject: string): (w: string)
    ensures |w| <= |subject| && w == subject[|subject| - |w|..]
    ensures ' ' in subject ==>
      ' ' !in w && |w| < |subject| && subject[|subject| - |w| - 1] == ' '
    ensures ' ' !in subject && |subject| > 0 ==> w == subject[1..]
    ensures |subject| == 0 ==> w == ""
  {
    var start := match LastSpace(subject) case Some(i) => i + 1 case None => 1;
    Substr(subject, start)
  }

  /** A key written after the last space of the subject is the last word. */
  lemma KeyAfterSpaceIsLastWord(prefix: string, key: string)
    requires ' ' !in key
    ensures LastWord(prefix + " " + key) == key
  {
    var subject := prefix + " " + key;
    var w := LastWord(subject);
    assert subject[|prefix|] == ' ';
    assert subject[|subject| - |key|..] == key;
  }

  /** The quirk of the no-space case: a subject that is nothing but a 32-character
      key loses its first character and is never looked up. */
  lemma BareKeySubjectIsNotLookedUp(subject: string)
    requires |subject| == LicenseKeyLength && ' ' !in subject
    ensures |LastWord(subject)| == LicenseKeyLength - 1
  {
  }

  /** `get_customer_emails_by_license_key`: when the licensing add-on is active
      and the ticket subject's last word is exactly 32 characters, that word is
      looked up as a license key; `keyOwnerEmail` stands for the chain
      license key -> license -> payment -> payment user info -> email. The
      owner's email is used when it is not PHP-empty. */
  function LicenseKeyEmails(p: Payload, licensingActive: bool,
                            keyOwnerEmail: string -> Option<string>): (r: seq<string>)
    ensures |r| <= 1
    ensures |r| == 1 <==>
      && licensingActive && Subject(p).Some?
      && |LastWord(Subject(p).value)| == LicenseKeyLength
      && keyOwnerEmail(LastWord(Subject(p).value)).Some?
      && !PhpEmpty(keyOwnerEmail(LastWord(Subject(p).value)).value)
    ensures |r| == 1 ==> r[0] == keyOwnerEmail(LastWord(Subject(p).value)).value
  {
    if !licensingActive || Subject(p).None? then []
    else
      var lastWord := LastWord(Subject(p).value);
      if |lastWord| != LicenseKeyLength then []
      else match keyOwnerEmail(lastWord)
        case Some(email) => if PhpEmpty(email) then [] else [email]
        case None => []
  }

  /** The store's customer profile as far as this endpoint uses it. */
  datatype EddCustomer = EddCustomer(id: int, name: string, emails: seq<string>)

  /** `get_edd_customer`: the profile is looked up by `customer.email` only, and
      only when the store's customer class is loaded. */
  function GetEddCustomer(p: Payload, customerClassExists: bool,
                          lookup: string -> EddCustomer): (c: Option<EddCustomer>)
    ensures c.Some? <==> customerClassExists && CustomerEmail(p).Some?
    ensures c.Some? ==> c.value == lookup(CustomerEmail(p).value)
  {
    if CustomerEmail(p).None? || !customerClassExists then None
    else Some(lookup(CustomerEmail(p).value))
  }

  /** Addresses contributed by the HelpScout customer: the `emails` list when
      it is a list of more than one entry, otherwise the single `email` if set. */
  function HelpScoutEmails(p: Payload): (r: seq<string>)
    ensures |r| > 1 <==>
      CustomerEmailsField(p).Some? && CustomerEmailsField(p).value.EmailList?
        && |CustomerEmailsField(p).value.items| > 1
    ensures |r| > 1 ==> CustomerEmailsField(p) == Some(EmailList(r))
    ensures |r| == 1 ==> CustomerEmail(p) == Some(r[0])
    ensures |r| == 0 ==> CustomerEmail(p).None?
  {
    var listed := CustomerEmailsField(p);
    if listed.Some? && listed.value.EmailList? && |listed.value.items| > 1 then listed.value.items
    else if CustomerEmail(p).Some? then [CustomerEmail(p).value]
    else []
  }

  /** Addresses contributed by the store profile: only when it has more than one. */
  function ProfileEmails(c: Option<EddCustomer>): (r: seq<string>)
    ensures |r| != 1
    ensures r != [] <==> c.Some? && |c.value.emails| > 1
    ensures r != [] ==> r == c.value.emails
  {
    if c.Some? && |c.value.emails| > 1 then c.value.emails else []
  }

  /** All sources in their fixed order: license-key owner, HelpScout, store profile. */
  function EmailSources(keyEmails: seq<string>, p: Payload, c: Option<EddCustomer>): (r: seq<string>)
    ensures var k, h := |keyEmails|, |HelpScoutEmails(p)|;
      && |r| == k + h + |ProfileEmails(c)|
      && r[..k] == keyEmails
      && r[k..k + h] == HelpScoutEmails(p)
      && r[k + h..] == ProfileEmails(c)
  {
    keyEmails + HelpScoutEmails(p) + ProfileEmails(c)
  }

  /** `get_customer_emails`: the sources are merged in order, duplicates are
      dropped keeping first occurrences, the `edd_helpscout_customer_emails`
      filter (passed in) has the last word, and an empty outcome ends the
      request with "No customer email given." */
  function GetCustomerEmails(p: Payload, licensingActive: bool,
                             keyOwnerEmail: string -> Option<string>,
                             c: Option<EddCustomer>,
                             emailsFilter: (seq<string>, Payload) -> seq<string>)
    : (r: Result<seq<string>, string>)
    ensures var merged := Unique(EmailSources(LicenseKeyEmails(p, licensingActive, keyOwnerEmail), p, c));
      && (r.Success? <==> |emailsFilter(merged, p)| > 0)
      && (r.Success? ==> r.value == emailsFilter(merged, p))
      && (r.Failure? ==> r.error == NoCustomerEmailMessage)
  {
    var emails := EmailSources(LicenseKeyEmails(p, licensingActive, keyOwnerEmail), p, c);
    var emails := Unique(emails);
    var emails := emailsFilter(emails, p);
    if |emails| == 0 then Failure(NoCustomerEmailMessage) else Success(emails)
  }

  /** The filter that leaves the list alone (no hook registered). */
  function NoFilter(emails: seq<string>, p: Payload): seq<string> {
    emails
  }

  /** Without a filter the result lists every source address exactly once, in
      order of first appearance, with the license-key owner first when found,
      and the request fails only when no source gave any address. */
  lemma UnfilteredEmailsAreDistinctAndOrdered(p: Payload, licensingActive: bool,
                                              keyOwnerEmail: string -> Option<string>,
                                              c: Option<EddCustomer>)
    ensures var keyEmails := LicenseKeyEmails(p, licensingActive, keyOwnerEmail);
      var sources := EmailSources(keyEmails, p, c);
      var r := GetCustomerEmails(p, licensingActive, keyOwnerEmail, c, NoFilter);
      && (r.Failure? <==> |sources| == 0)
      && (r.Success? ==>
            && NoDup(r.value)
            && (forall x :: x in r.value <==> x in sources)
            && (forall i, j :: 0 <= i < j < |r.value| ==>
                  IndexOf(sources, r.value[i]) < IndexOf(sources, r.value[j]))
            && (|keyEmails| == 1 ==> r.value[0] == keyEmails[0]))
  {
    var keyEmails := LicenseKeyEmails(p, licensingActive, keyOwnerEmail);
    var sources := EmailSources(keyEmails, p, c);
    UniqueKeepsFirstOccurrenceOrder(sources);
    if |keyEmails| == 1 {
      UniqueKeepsHead(sources);
    }
  }

  /** A payload whose `emails` list has a single entry and no `email` passes
      validation but yields no address of its own: the list is used only when
      it has more than one entry. */
  lemma SingleListEntryWithoutEmailIsIgnored(p: Payload, x: string)
    requires CustomerEmailsField(p) == Some(EmailList([x])) && CustomerEmail(p).None?
    ensures HasEmailField(p)
    ensures GetCustomerEmails(p, false, _ => None, None, NoFilter).Failure?
  {
  }

  /** In dummy mode the fixture's subject ends in "plugin", so no license key is
      looked up, and its one-entry `emails` list falls back to `email`: without a
      filter or a multi-address profile the only address is the dummy one. */
  lemma FixtureYieldsOnlyTheDummyAddress(dummyEmail: Option<string>, decoded: Payload, licensingActive: bool,
                                         keyOwnerEmail: string -> Option<string>, c: Option<EddCustomer>)
    requires c.None? || |c.value.emails| <= 1
    ensures GetCustomerEmails(ParseData(true, dummyEmail, decoded), licensingActive, keyOwnerEmail, c, NoFilter)
         == Success([dummyEmail.GetOr(DefaultDummyEmail)])
  {
    var p := ParseData(true, dummyEmail, decoded);
    var email := dummyEmail.GetOr(DefaultDummyEmail);
    KeyAfterSpaceIsLastWord("I need help using your", "plugin");
    assert "I need help using your" + " " + "plugin" == "I need help using your plugin";
    assert LicenseKeyEmails(p, licensingActive, keyOwnerEmail) == [];
    assert EmailSources([], p, c) == [email];
    UniqueOfDistinct([email]);
  }
}

=== FILE: endpoint.dfy ===
/** The request pipeline of the HelpScout endpoint (class-endpoint.php): parse,
    validate, look up the store customer, gather emails, find payments, build
    the orders with their licenses, and answer with a `{html: ...}` envelope. */
module Endpoint {
  import opened Wrappers
  import opened Strings
  import opened Payloads
  import opened CustomerEmails
  import opened Payments
  import opened Licenses
  import opened Gateways

  /** A purchased download of a payment, reduced to its ID: the other cart
      fields are not part of this model, so the order template sees only the ID. */
  datatype Download = Download(id: int)

  /** A download as shown: with its parent license and child licenses when the
      licensing add-on supplied any. */
  datatype DownloadView = DownloadView(
    download: Download,
    license: Option<LicenseView>,
    childLicenses: seq<LicenseView>)

  /** `$order` as handed to the order template. */
  datatype Order = Order(
    paymentId: int,
    date: string,
    amount: string,
    currency: string,
    status: string,
    paymentMethod: string,
    downloads: seq<DownloadView>,
    resendReceiptLink: string,
    isRenewal: bool,
    isCompleted: bool)

  /** The JSON envelope `{"html": ...}` that `respond` sends before terminating. */
  datatype Response = Response(html: string)

  /** Environment switches: the dummy-data constants, the signature header,
      which store classes and functions exist, and the prefixed table names. */
  datatype Config = Config(
    dummyMode: bool,
    dummyEmail: Option<string>,
    signatureHeader: Option<string>,
    customerClassExists: bool,
    licensingClassExists: bool,
    licensingApiRecent: bool,
    postsTable: string,
    postmetaTable: string)

  /** Everything the endpoint asks of code outside it: request signing, the
      store's lookups, the two filters, the SQL query, escaping and templates. */
  datatype Externals = Externals(
    signatureEquals: (Payload, string) -> bool,
    signedUrl: (string, seq<(string, string)>) -> string,
    keyOwnerEmail: string -> Option<string>,
    lookupCustomer: string -> EddCustomer,
    emailsFilter: (seq<string>, Payload) -> seq<string>,
    paymentsFilter: (seq<PaymentRow>, seq<string>, Payload) -> seq<PaymentRow>,
    runQuery: (string, seq<string>) -> Option<seq<PaymentRow>>,
    paymentAmount: int -> string,
    paymentCurrency: int -> string,
    paymentGateway: int -> string,
    paymentNotes: int -> seq<string>,
    paymentDownloads: int -> seq<Download>,
    licensesOfPurchase: int -> seq<License>,
    isExpired: License -> bool,
    escAttr: string -> string,
    renderOrder: Order -> string,
    renderCustomer: EddCustomer -> string)

  const InvalidSignatureMessage: string := "Invalid signature"
  const ResendReceiptAction: string := "resend_purchase_receipt"
  const CompletedStatus: string := "publish"

  /** Arguments signed into the resend-receipt link. */
  function ResendArgs(paymentId: int): seq<(string, string)> {
    [("payment_id", IntToString(paymentId))]
  }

  /** Views of the licenses at the given positions, in that order. */
  function DescribeLicenses(positions: seq<nat>, lics: seq<License>, env: Externals): (r: seq<LicenseView>)
    requires forall j :: 0 <= j < |positions| ==> positions[j] < |lics|
    ensures |r| == |positions|
    ensures forall j :: 0 <= j < |positions| ==>
      r[j] == DescribeLicense(lics[positions[j]], env.isExpired, env.signedUrl)
  {
    if |positions| == 0 then []
    else
      [DescribeLicense(lics[positions[0]], env.isExpired, env.signedUrl)]
        + DescribeLicenses(positions[1..], lics, env)
  }

  /** One download with its licenses: the parent bucket becomes `license`, the
      child bucket `child_licenses`, in bucket order. */
  function DescribeDownload(dl: Download, lics: seq<License>, env: Externals): (v: DownloadView)
    ensures v.download == dl
    ensures var b := Bucket(lics, dl.id);
      && (v.license.Some? <==> b.parent.Some?)
      && (b.parent.Some? ==>
            v.license == Some(DescribeLicense(lics[b.parent.value], env.isExpired, env.signedUrl)))
      && |v.childLicenses| == |b.child|
      && forall j :: 0 <= j < |b.child| ==>
            v.childLicenses[j] == DescribeLicense(lics[b.child[j]], env.isExpired, env.signedUrl)
  {
    var b := Bucket(lics, dl.id);
    var parentView := match b.parent
      case Some(p) => Some(DescribeLicense(lics[p], env.isExpired, env.signedUrl))
      case None => None;
    DownloadView(dl, parentView, DescribeLicenses(b.child, lics, env))
  }

  /** Every download of a payment, described against the payment's licenses. */
  function DescribeDownloads(dls: seq<Download>, lics: seq<License>, env: Externals): (r: seq<DownloadView>)
    ensures |r| == |dls|
    ensures forall i :: 0 <= i < |dls| ==> r[i] == DescribeDownload(dls[i], lics, env)
  {
    if |dls| == 0 then []
    else [DescribeDownload(dls[0], lics, env)] + DescribeDownloads(dls[1..], lics, env)
  }

  /** Downloads left as the store gave them, without license data. */
  function PlainDownloads(dls: seq<Download>): (r: seq<DownloadView>)
    ensures |r| == |dls|
    ensures forall i :: 0 <= i < |dls| ==> r[i] == DownloadView(dls[i], None, [])
  {
    if |dls| == 0 then [] else [DownloadView(dls[0], None, [])] + PlainDownloads(dls[1..])
  }

  /** The order built from one payment row (the body of the payments loop). */
  function BuildOrder(pay: PaymentRow, cfg: Config, env: Externals): (o: Order)
    ensures o.paymentId == pay.id && o.date == pay.date && o.status == pay.status
    ensures o.isCompleted <==> pay.status == CompletedStatus
    ensures o.isCompleted ==> o.resendReceiptLink == env.signedUrl(ResendReceiptAction, ResendArgs(pay.id))
    ensures !o.isCompleted ==> o.resendReceiptLink == ""
    ensures !o.isRenewal
    ensures o.amount == env.paymentAmount(pay.id) && o.currency == env.paymentCurrency(pay.id)
    ensures o.paymentMethod ==
      PaymentMethod(env.paymentGateway(pay.id), env.paymentNotes(pay.id), env.escAttr)
    ensures var dls := env.paymentDownloads(pay.id);
      && |o.downloads| == |dls|
      && forall i :: 0 <= i < |dls| ==> o.downloads[i].download == dls[i]
    ensures var dls := env.paymentDownloads(pay.id);
      var lics := env.licensesOfPurchase(pay.id);
      if cfg.licensingApiRecent && |lics| > 0 then
        forall i :: 0 <= i < |dls| ==> o.downloads[i] == DescribeDownload(dls[i], lics, env)
      else
        forall i :: 0 <= i < |dls| ==> o.downloads[i].license.None? && o.downloads[i].childLicenses == []
  {
    var completed := pay.status == CompletedStatus;
    var dls := env.paymentDownloads(pay.id);
    var lics := if cfg.licensingApiRecent then env.licensesOfPurchase(pay.id) else [];
    var views := if |lics| > 0 then DescribeDownloads(dls, lics, env) else PlainDownloads(dls);
    Order(
      pay.id,
      pay.date,
      env.paymentAmount(pay.id),
      env.paymentCurrency(pay.id),
      pay.status,
      PaymentMethod(env.paymentGateway(pay.id), env.paymentNotes(pay.id), env.escAttr),
      views,
      if completed then env.signedUrl(ResendReceiptAction, ResendArgs(pay.id)) else "",
      false,
      completed)
  }

  /** One order per payment row, in the rows' order. */
  function BuildOrders(payments: seq<PaymentRow>, cfg: Config, env: Externals): (r: seq<Order>)
    ensures |r| == |payments|
    ensures forall i :: 0 <= i < |payments| ==> r[i] == BuildOrder(payments[i], cfg, env)
  {
    if |payments| == 0 then []
    else [BuildOrder(payments[0], cfg, env)] + BuildOrders(payments[1..], cfg, env)
  }

  /** Tags wrapped around each address in the "no payments" message. */
  const Open: string := "<strong>"
  const Close: string := "</strong>"

  /** The answer when no payment was found: every address in bold, joined by "or". */
  function NoPaymentsMessage(emails: seq<string>): string {
    "<p>No payments found for " + (Open + Join(Close + " or " + Open, emails) + Close) + ".</p>"
  }

  lemma {:induction false} JoinWrapped(parts: seq<string>, i: nat)
    requires i < |parts|
    ensures Contains(Open + Join(Close + " or " + Open, parts) + Close, Open + parts[i] + Close)
    decreases |parts|
  {
    var sep := Close + " or " + Open;
    var target := Open + parts[i] + Close;
    if |parts| == 1 {
      assert Open + Join(sep, parts) + Close == "" + target + "";
      ContainsInfix("", target, "");
    } else {
      var first := Open + parts[0] + Close;
      var rest := Open + Join(sep, parts[1..]) + Close;
      assert Open + Join(sep, parts) + Close == first + " or " + rest;
      if i == 0 {
        ContainsInfix("", first, " or " + rest);
        assert "" + first + (" or " + rest) == first + " or " + rest;
      } else {
        JoinWrapped(parts[1..], i - 1);
        ContainsAfterPrefix(first + " or ", rest, target);
      }
    }
  }

  /** Every address appears, in bold, in the "no payments" message. */
  lemma NoPaymentsMessageNamesEveryEmail(emails: seq<string>, i: nat)
    requires i < |emails|
    ensures Contains(NoPaymentsMessage(emails), Open + emails[i] + Close)
  {
    var wrapped := Open + Join(Close + " or " + Open, emails) + Close;
    JoinWrapped(emails, i);
    ContainsAfterPrefix("<p>No payments found for ", wrapped, Open + emails[i] + Close);
    ContainsBeforeSuffix("<p>No payments found for " + wrapped, ".</p>", Open + emails[i] + Close);
  }

  /** `str_replace('\t', '', $html)` as written: in single quotes '\t' is the
      two characters backslash and t, so that pair is removed and tab
      characters are kept. */
  function StripBackslashT(s: string): (r: string)
    ensures |r| <= |s|
    ensures !Contains(s, "\\t") ==> r == s
    ensures forall c :: c != '\\' && c != 't' ==> multiset(r)[c] == multiset(s)[c]
    decreases |s|
  {
    if |s| == 0 then ""
    else if |s| >= 2 && s[0] == '\\' && s[1] == 't' then
      assert s == s[..2] + s[2..];
      StripBackslashT(s[2..])
    else
      assert s == [s[0]] + s[1..];
      [s[0]] + StripBackslashT(s[1..])
  }

  /** Each backslash-t pair is cut out and the text on both sides is treated on its own. */
  lemma {:induction false} StripBackslashTRemovesPair(a: string, b: string)
    ensures StripBackslashT(a + "\\t" + b) == StripBackslashT(a) + StripBackslashT(b)
    decreases |a|
  {
    var s := a + "\\t" + b;
    if |a| == 0 {
      assert s[0] == '\\' && s[1] == 't' && s[2..] == b;
      assert StripBackslashT(s) == StripBackslashT(b);
      assert StripBackslashT(a) == "";
    } else if |a| >= 2 && a[0] == '\\' && a[1] == 't' {
      assert s[0] == '\\' && s[1] == 't';
      assert s[2..] == a[2..] + "\\t" + b;
      assert StripBackslashT(s) == StripBackslashT(s[2..]);
      assert StripBackslashT(a) == StripBackslashT(a[2..]);
      StripBackslashTRemovesPair(a[2..], b);
    } else {
      assert s[0] == a[0];
      assert !(s[0] == '\\' && s[1] == 't') by {
        if |a| == 1 { assert s[1] == '\\'; } else { assert s[1] == a[1]; }
      }
      assert s[1..] == a[1..] + "\\t" + b;
      assert StripBackslashT(s) == [s[0]] + StripBackslashT(s[1..]);
      assert StripBackslashT(a) == [a[0]] + StripBackslashT(a[1..]);
      StripBackslashTRemovesPair(a[1..], b);
    }
  }

  /** The replacement as written leaves a tab in place and cuts "\t" out of text. */
  lemma StripBackslashTMissesTabs()
    ensures StripBackslashT("a\tb") == "a\tb"
    ensures StripBackslashT("C:\\temp") == "C:emp"
  {
    assert "a\tb"[1..] == "\tb" && "\tb"[1..] == "b";
    assert "C:\\temp"[1..] == ":\\temp" && ":\\temp"[1..] == "\\temp" && "\\temp"[2..] == "emp";
    assert "emp"[1..] == "mp" && "mp"[1..] == "p";
  }

  /** The evidently intended replacement: remove every tab character. */
  function StripTabs(s: string): (r: string)
    ensures '\t' !in r
    ensures |r| <= |s|
    ensures '\t' !in s ==> r == s
  {
    if |s| == 0 then ""
    else (if s[0] == '\t' then "" else [s[0]]) + StripTabs(s[1..])
  }

  /** Removing tabs works piece by piece, so it keeps every other character in order. */
  lemma {:induction false} StripTabsAppend(a: string, b: string)
    ensures StripTabs(a + b) == StripTabs(a) + StripTabs(b)
    decreases |a|
  {
    if |a| == 0 {
      assert a + b == b;
    } else {
      assert (a + b)[1..] == a[1..] + b;
      StripTabsAppend(a[1..], b);
    }
  }

  /** The order rows as line 409 writes them: each row passed through the
      single-quoted `str_replace`, concatenated in order. */
  function RenderOrders(orders: seq<Order>, env: Externals): string {
    if |orders| == 0 then ""
    else StripBackslashT(env.renderOrder(orders[0])) + RenderOrders(orders[1..], env)
  }

  /** Every order's row, after the replacement, appears in the concatenation. */
  lemma {:induction false} EveryOrderIsRendered(orders: seq<Order>, env: Externals, i: nat)
    requires i < |orders|
    ensures Contains(RenderOrders(orders, env), StripBackslashT(env.renderOrder(orders[i])))
    decreases |orders|
  {
    var first := StripBackslashT(env.renderOrder(orders[0]));
    var rest := RenderOrders(orders[1..], env);
    if i == 0 {
      ContainsInfix("", first, rest);
      assert "" + first + rest == first + rest;
    } else {
      EveryOrderIsRendered(orders[1..], env, i - 1);
      ContainsAfterPrefix(first, rest, StripBackslashT(env.renderOrder(orders[i])));
    }
  }

  /** As written, a tab in any rendered row reaches the page. */
  lemma TabsSurviveRendering(orders: seq<Order>, env: Externals, i: nat)
    requires i < |orders| && '\t' in env.renderOrder(orders[i])
    ensures '\t' in RenderOrders(orders, env)
  {
    var row := env.renderOrder(orders[i]);
    var stripped := StripBackslashT(row);
    assert multiset(row)['\t'] > 0;
    assert '\t' in stripped by {
      assert multiset(stripped)['\t'] == multiset(row)['\t'];
    }
    EveryOrderIsRendered(orders, env, i);
    ContainsKeepsChar(RenderOrders(orders, env), stripped, '\t');
  }

  /** The order rows as evidently intended: every tab removed. */
  function RenderOrdersIntended(orders: seq<Order>, env: Externals): (html: string)
    ensures '\t' !in html
  {
    if |orders| == 0 then ""
    else StripTabs(env.renderOrder(orders[0])) + RenderOrdersIntended(orders[1..], env)
  }

  /** The two renderings differ only on rows holding a tab or a backslash. */
  lemma {:induction false} RenderingsAgreeOnPlainRows(orders: seq<Order>, env: Externals)
    requires forall i :: 0 <= i < |orders| ==>
      '\t' !in env.renderOrder(orders[i]) && '\\' !in env.renderOrder(orders[i])
    ensures RenderOrders(orders, env) == RenderOrdersIntended(orders, env)
    decreases |orders|
  {
    if |orders| > 0 {
      assert forall i :: 0 <= i < |orders[1..]| ==> orders[1..][i] == orders[i + 1];
      RenderingsAgreeOnPlainRows(orders[1..], env);
      var row := env.renderOrder(orders[0]);
      if Contains(row, "\\t") {
        assert '\\' in "\\t";
        ContainsKeepsChar(row, "\\t", '\\');
      }
    }
  }

  /** The customer's name and profile link on top, when there is a store customer. */
  function CustomerHeader(customer: Option<EddCustomer>, env: Externals): (header: string)
    ensures customer.Some? ==> header == env.renderCustomer(customer.value)
    ensures customer.None? ==> header == ""
  {
    match customer
    case Some(c) => env.renderCustomer(c)
    case None => ""
  }

  /** `build_response_html`: without payments, the "no payments" message naming
      every address; otherwise the customer header followed by the row of every
      payment's order, after line 409's replacement. */
  function BuildResponseHtml(emails: seq<string>, payments: seq<PaymentRow>,
                             customer: Option<EddCustomer>, cfg: Config, env: Externals): (html: string)
    ensures |payments| == 0 ==> html == NoPaymentsMessage(emails)
    ensures |payments| > 0 ==>
      && CustomerHeader(customer, env) <= html
      && forall i :: 0 <= i < |payments| ==>
           Contains(html, StripBackslashT(env.renderOrder(BuildOrder(payments[i], cfg, env))))
  {
    if |payments| == 0 then NoPaymentsMessage(emails)
    else
      var header := CustomerHeader(customer, env);
      var orders := BuildOrders(payments, cfg, env);
      var body := RenderOrders(orders, env);
      assert forall i :: 0 <= i < |payments| ==>
        Contains(header + body, StripBackslashT(env.renderOrder(BuildOrder(payments[i], cfg, env)))) by {
        forall i | 0 <= i < |payments|
          ensures Contains(header + body, StripBackslashT(env.renderOrder(BuildOrder(payments[i], cfg, env))))
        {
          EveryOrderIsRendered(orders, env, i);
          ContainsAfterPrefix(header, body, StripBackslashT(env.renderOrder(orders[i])));
        }
      }
      header + body
  }

  /** The whole request, from the decoded body to the envelope sent back. Each
      failure ends the request at once: an invalid request answers "Invalid
      signature", an empty email list "No customer email given.". */
  function HandleRequest(cfg: Config, env: Externals, decoded: Payload): (resp: Response)
    ensures var p := ParseData(cfg.dummyMode, cfg.dummyEmail, decoded);
      !Validate(p, cfg.dummyMode, cfg.signatureHeader, env.signatureEquals) ==>
        resp == Response(InvalidSignatureMessage)
    ensures var p := ParseData(cfg.dummyMode, cfg.dummyEmail, decoded);
      var customer := GetEddCustomer(p, cfg.customerClassExists, env.lookupCustomer);
      Validate(p, cfg.dummyMode, cfg.signatureHeader, env.signatureEquals)
        && GetCustomerEmails(p, cfg.licensingClassExists, env.keyOwnerEmail, customer, env.emailsFilter).Failure? ==>
        resp == Response(NoCustomerEmailMessage)
    ensures var p := ParseData(cfg.dummyMode, cfg.dummyEmail, decoded);
      var customer := GetEddCustomer(p, cfg.customerClassExists, env.lookupCustomer);
      var emails := GetCustomerEmails(p, cfg.licensingClassExists, env.keyOwnerEmail, customer, env.emailsFilter);
      Validate(p, cfg.dummyMode, cfg.signatureHeader, env.signatureEquals) && emails.Success? ==>
        var payments := QueryCustomerPayments(emails.value, p, env.paymentsFilter,
                                              cfg.postsTable, cfg.postmetaTable, env.runQuery);
        && (|payments| == 0 ==> resp.html == NoPaymentsMessage(emails.value))
        && (forall i :: 0 <= i < |payments| ==>
              Contains(resp.html, StripBackslashT(env.renderOrder(BuildOrder(payments[i], cfg, env)))))
  {
    var p := ParseData(cfg.dummyMode, cfg.dummyEmail, decoded);
    if !Validate(p, cfg.dummyMode, cfg.signatureHeader, env.signatureEquals) then
      Response(InvalidSignatureMessage)
    else
      var customer := GetEddCustomer(p, cfg.customerClassExists, env.lookupCustomer);
      match GetCustomerEmails(p, cfg.licensingClassExists, env.keyOwnerEmail, customer, env.emailsFilter)
      case Failure(message) => Response(message)
      case Success(emails) =>
        var payments := QueryCustomerPayments(emails, p, env.paymentsFilter,
                                              cfg.postsTable, cfg.postmetaTable, env.runQuery);
        var html := BuildResponseHtml(emails, payments, customer, cfg, env);
        Response(html)
  }

  /** A live request without a signature header is refused whatever its body. */
  lemma UnsignedLiveRequestIsRefused(cfg: Config, env: Externals, decoded: Payload)
    requires !cfg.dummyMode && cfg.signatureHeader.None?
    ensures HandleRequest(cfg, env, decoded) == Response(InvalidSignatureMessage)
  {
  }

  /** In dummy mode neither the signature header nor the signature check has
      any influence on the answer. */
  lemma DummyModeIgnoresSignature(cfg: Config, env: Externals, decoded: Payload,
                                  header: Option<string>, check: (Payload, string) -> bool)
    requires cfg.dummyMode
    ensures HandleRequest(cfg, env, decoded)
         == HandleRequest(cfg.(signatureHeader := header), env.(signatureEquals := check), decoded)
  {
    var p := ParseData(true, cfg.dummyEmail, decoded);
    assert Validate(p, true, cfg.signatureHeader, env.signatureEquals);
    assert Validate(p, true, header, check);
    var env' := env.(signatureEquals := check);
    assert BuildOrders([], cfg, env) == [];
    forall payments: seq<PaymentRow>, emails: seq<string>, customer: Option<EddCustomer>
      ensures BuildResponseHtml(emails, payments, customer, cfg, env)
           == BuildResponseHtml(emails, payments, customer, cfg.(signatureHeader := header), env')
    {
      SignatureFreeHtml(emails, payments, customer, cfg, env, header, check);
    }
  }

  /** Building the orders and the page never consults the signature settings. */
  lemma {:induction false} SignatureFreeHtml(emails: seq<string>, payments: seq<PaymentRow>,
                                             customer: Option<EddCustomer>, cfg: Config, env: Externals,
                                             header: Option<string>, check: (Payload, string) -> bool)
    ensures BuildResponseHtml(emails, payments, customer, cfg, env)
         == BuildResponseHtml(emails, payments, customer, cfg.(signatureHeader := header),
                              env.(signatureEquals := check))
  {
    var cfg' := cfg.(signatureHeader := header);
    var env' := env.(signatureEquals := check);
    SignatureFreeOrders(payments, cfg, env, header, check);
    if |payments| > 0 {
      SignatureFreeRender(BuildOrders(payments, cfg, env), env, check);
    }
  }

  lemma {:induction false} SignatureFreeOrders(payments: seq<PaymentRow>, cfg: Config, env: Externals,
                                               header: Option<string>, check: (Payload, string) -> bool)
    ensures BuildOrders(payments, cfg, env)
         == BuildOrders(payments, cfg.(signatureHeader := header), env.(signatureEquals := check))
    decreases |payments|
  {
    if |payments| > 0 {
      SignatureFreeOrders(payments[1..], cfg, env, header, check);
      SignatureFreeOrder(payments[0], cfg, env, header, check);
    }
  }

  lemma SignatureFreeOrder(pay: PaymentRow, cfg: Config, env: Externals,
                           header: Option<string>, check: (Payload, string) -> bool)
    ensures BuildOrder(pay, cfg, env)
         == BuildOrder(pay, cfg.(signatureHeader := header), env.(signatureEquals := check))
  {
    var env' := env.(signatureEquals := check);
    var dls := env.paymentDownloads(pay.id);
    var lics := env.licensesOfPurchase(pay.id);
    SignatureFreeDownloads(dls, lics, env, check);
  }

  lemma {:induction false} SignatureFreeDownloads(dls: seq<Download>, lics: seq<License>, env: Externals,
                                                  check: (Payload, string) -> bool)
    ensures DescribeDownloads(dls, lics, env) == DescribeDownloads(dls, lics, env.(signatureEquals := check))
    decreases |dls|
  {
    if |dls| > 0 {
      SignatureFreeDownloads(dls[1..], lics, env, check);
      var b := Bucket(lics, dls[0].id);
      SignatureFreeLicenses(b.child, lics, env, check);
    }
  }

  lemma {:induction false} SignatureFreeLicenses(positions: seq<nat>, lics: seq<License>, env: Externals,
                                                 check: (Payload, string) -> bool)
    requires forall j :: 0 <= j < |positions| ==> positions[j] < |lics|
    ensures DescribeLicenses(positions, lics, env) == DescribeLicenses(positions, lics, env.(signatureEquals := check))
    decreases |positions|
  {
    if |positions| > 0 {
      SignatureFreeLicenses(positions[1..], lics, env, check);
    }
  }

  lemma {:induction false} SignatureFreeRender(orders: seq<Order>, env: Externals, check: (Payload, string) -> bool)
    ensures RenderOrders(orders, env) == RenderOrders(orders, env.(signatureEquals := check))
    decreases |orders|
  {
    if |orders| > 0 {
      SignatureFreeRender(orders[1..], env, check);
    }
  }
}

=== FILE: gateways.dfy ===
/** The payment-method label of an order (class-endpoint.php, `get_payment_method`):
    PayPal and Stripe payments link to the provider's transaction page when a
    payment note carries the transaction ID. */
module Gateways {
  import opened Wrappers
  import opened Strings

  /** Note prefixes matched by `/^PayPal Transaction ID: ([^\s]+)/` and
      `/^Stripe Charge ID: ([^\s]+)/`. */
  const PayPalNotePrefix: string := "PayPal Transaction ID: "
  const StripeNotePrefix: string := "Stripe Charge ID: "

  /** The longest leading run of non-whitespace characters (`[^\s]+`, greedy). */
  function NonSpaceRun(s: string): (r: string)
    ensures r <= s
    ensures forall i :: 0 <= i < |r| ==> !IsSpace(r[i])
    ensures |r| == |s| || IsSpace(s[|r|])
  {
    if |s| == 0 || IsSpace(s[0]) then "" else [s[0]] + NonSpaceRun(s[1..])
  }

  /** The capture group of the anchored pattern `^prefix([^\s]+)` on `note`. */
  function MatchNote(note: string, prefix: string): (r: Option<string>)
    ensures r.Some? ==>
      && |r.value| > 0
      && prefix + r.value <= note
      && (forall i :: 0 <= i < |r.value| ==> !IsSpace(r.value[i]))
      && (|prefix| + |r.value| == |note| || IsSpace(note[|prefix| + |r.value|]))
    ensures r.None? <==> !(prefix <= note) || |note| == |prefix| || IsSpace(note[|prefix|])
  {
    if !(prefix <= note) then None
    else
      var id := NonSpaceRun(note[|prefix|..]);
      assert note == prefix + note[|prefix|..];
      if |id| == 0 then None else Some(id)
  }

  /** A note written as prefix, ID and then nothing or whitespace yields exactly that ID. */
  lemma {:induction false} MatchNoteRoundTrip(prefix: string, id: string, rest: string)
    requires |id| > 0 && forall i :: 0 <= i < |id| ==> !IsSpace(id[i])
    requires |rest| == 0 || IsSpace(rest[0])
    ensures MatchNote(prefix + id + rest, prefix) == Some(id)
  {
    var note := prefix + id + rest;
    assert prefix <= note;
    assert note[|prefix|..] == id + rest;
    NonSpaceRunOfWord(id, rest);
  }

  lemma {:induction false} NonSpaceRunOfWord(id: string, rest: string)
    requires forall i :: 0 <= i < |id| ==> !IsSpace(id[i])
    requires |rest| == 0 || IsSpace(rest[0])
    ensures NonSpaceRun(id + rest) == id
    decreases |id|
  {
    if |id| == 0 {
      assert id + rest == rest;
    } else {
      assert (id + rest)[1..] == id[1..] + rest;
      NonSpaceRunOfWord(id[1..], rest);
    }
  }

  /** The ID from the first note that matches, scanning the notes in order. */
  function FirstNoteMatch(notes: seq<string>, prefix: string): (r: Option<string>)
    ensures r.None? <==> forall i :: 0 <= i < |notes| ==> MatchNote(notes[i], prefix).None?
    ensures r.Some? ==> exists i :: 0 <= i < |notes| && MatchNote(notes[i], prefix) == r &&
                          forall j :: 0 <= j < i ==> MatchNote(notes[j], prefix).None?
  {
    if |notes| == 0 then None
    else match MatchNote(notes[0], prefix)
      case Some(id) => Some(id)
      case None =>
        var r := FirstNoteMatch(notes[1..], prefix);
        assert forall i :: 1 <= i < |notes| ==> notes[i] == notes[1..][i - 1];
        if r.Some? then
          var i :| 0 <= i < |notes| - 1 && MatchNote(notes[1..][i], prefix) == r &&
                   forall j :: 0 <= j < i ==> MatchNote(notes[1..][j], prefix).None?;
          assert MatchNote(notes[i + 1], prefix) == r;
          r
        else r
  }

  /** Link to a PayPal transaction; `escAttr` stands for WordPress's `esc_attr`. */
  function PayPalLink(id: string, escAttr: string -> string): string {
    "<a href=\"https://www.paypal.com/us/vst/id=" + escAttr(id) + "\" target=\"_blank\">PayPal</a>"
  }

  /** Link to a Stripe charge. */
  function StripeLink(id: string, escAttr: string -> string): string {
    "<a href=\"https://dashboard.stripe.com/payments/" + escAttr(id) + "\" target=\"_blank\">Stripe</a>"
  }

  /** Whether the gateway is one of the two PayPal gateways. */
  predicate IsPayPal(gateway: string) {
    gateway == "paypal" || gateway == "paypalexpress"
  }

  /** `get_payment_method`: PayPal and Stripe link to the transaction named by
      the first matching note and otherwise keep the gateway name; manual
      purchases read "Manual"; any other gateway name is shown as it is. */
  function PaymentMethod(gateway: string, notes: seq<string>, escAttr: string -> string): (shown: string)
    ensures IsPayPal(gateway) ==>
      shown == (match FirstNoteMatch(notes, PayPalNotePrefix)
                case Some(id) => PayPalLink(id, escAttr)
                case None => gateway)
    ensures gateway == "stripe" ==>
      shown == (match FirstNoteMatch(notes, StripeNotePrefix)
                case Some(id) => StripeLink(id, escAttr)
                case None => gateway)
    ensures gateway == "manual_purchases" ==> shown == "Manual"
    ensures !IsPayPal(gateway) && gateway !in {"stripe", "manual_purchases"} ==> shown == gateway
  {
    if IsPayPal(gateway) then
      match FirstNoteMatch(notes, PayPalNotePrefix)
      case Some(id) => PayPalLink(id, escAttr)
      case None => gateway
    else if gateway == "stripe" then
      match FirstNoteMatch(notes, StripeNotePrefix)
      case Some(id) => StripeLink(id, escAttr)
      case None => gateway
    else if gateway == "manual_purchases" then "Manual"
    else gateway
  }

  /** A PayPal payment whose first matching note is
      "PayPal Transaction ID: <id>" links to the transaction <id>, even when a
      later note names another transaction. */
  lemma PayPalNoteGivesLink(gateway: string, id: string, later: seq<string>, escAttr: string -> string)
    requires IsPayPal(gateway)
    requires |id| > 0 && forall i :: 0 <= i < |id| ==> !IsSpace(id[i])
    ensures PaymentMethod(gateway, [PayPalNotePrefix + id] + later, escAttr) == PayPalLink(id, escAttr)
  {
    MatchNoteRoundTrip(PayPalNotePrefix, id, "");
    assert PayPalNotePrefix + id + "" == PayPalNotePrefix + id;
  }

  /** Unanchored mentions do not count: a note that does not start with the
      prefix leaves a Stripe payment labelled with the gateway name. */
  lemma StripeWithoutAnchoredNoteKeepsName(notes: seq<string>, escAttr: string -> string)
    requires forall i :: 0 <= i < |notes| ==> !(StripeNotePrefix <= notes[i])
    ensures PaymentMethod("stripe", notes, escAttr) == "stripe"
  {
  }
}

=== FILE: licenses.dfy ===
/** Grouping a payment's licenses under each purchased download and describing
    them with their activated sites (class-endpoint.php, lines 328-392 of
    `build_response_html`). */
module Licenses {
  import opened Wrappers
  import opened Seqs
  import opened Strings

  /** A software license as read from the licensing add-on. `parent` is 0 for
      a license without a parent. */
  datatype License = License(
    id: int,
    downloadId: int,
    parent: int,
    key: string,
    activationLimit: int,
    expiration: string,
    postStatus: string,
    sites: seq<string>)

  /** `$license->parent && $license->parent == $parent_license->ID`. */
  predicate IsChildOf(l: License, parentLicense: License) {
    l.parent != 0 && l.parent == parentLicense.id
  }

  /** The two buckets built per download, holding positions in the payment's
      license list: the keys `$key` of `$licenses['parent']` and `$licenses['child']`. */
  datatype Buckets = Buckets(parent: Option<nat>, child: seq<nat>)

  /** Position `p` holds the first license for download `d`. */
  predicate IsFirstMatch(lics: seq<License>, d: int, p: nat) {
    p < |lics| && lics[p].downloadId == d && forall j :: 0 <= j < p ==> lics[j].downloadId != d
  }

  /** The first loop over the payment's licenses: the first license of the
      download becomes the parent, any further one is deferred to the children. */
  function CollectForDownload(lics: seq<License>, d: int, k: nat, acc: Buckets): Buckets
    requires k <= |lics|
    decreases |lics| - k
  {
    if k == |lics| then acc
    else if lics[k].downloadId != d then CollectForDownload(lics, d, k + 1, acc)
    else if acc.parent.None? then CollectForDownload(lics, d, k + 1, acc.(parent := Some(k)))
    else CollectForDownload(lics, d, k + 1, acc.(child := Put(acc.child, k)))
  }

  /** What the first loop has established after looking at positions below `k`. */
  ghost predicate FirstPassDone(lics: seq<License>, d: int, k: nat, b: Buckets) {
    && k <= |lics|
    && (b.parent.None? ==> (forall j :: 0 <= j < k ==> lics[j].downloadId != d) && b.child == [])
    && (b.parent.Some? ==> b.parent.value < k && IsFirstMatch(lics, d, b.parent.value))
    && NoDup(b.child)
    && (forall x: nat :: x in b.child <==> x < k && lics[x].downloadId == d && Some(x) != b.parent)
  }

  lemma {:induction false} CollectForDownloadSpec(lics: seq<License>, d: int, k: nat, acc: Buckets)
    requires k <= |lics| && FirstPassDone(lics, d, k, acc)
    ensures FirstPassDone(lics, d, |lics|, CollectForDownload(lics, d, k, acc))
    decreases |lics| - k
  {
    if k < |lics| {
      if lics[k].downloadId != d {
        CollectForDownloadSpec(lics, d, k + 1, acc);
      } else if acc.parent.None? {
        CollectForDownloadSpec(lics, d, k + 1, acc.(parent := Some(k)));
      } else {
        CollectForDownloadSpec(lics, d, k + 1, acc.(child := Put(acc.child, k)));
      }
    }
  }

  /** The second loop: every license pointing at the parent is added to the
      children under its own position, so a license already there stays once. */
  function CollectChildren(lics: seq<License>, p: nat, k: nat, child: seq<nat>): seq<nat>
    requires p < |lics| && k <= |lics|
    decreases |lics| - k
  {
    if k == |lics| then child
    else if IsChildOf(lics[k], lics[p]) then CollectChildren(lics, p, k + 1, Put(child, k))
    else CollectChildren(lics, p, k + 1, child)
  }

  lemma {:induction false} CollectChildrenSpec(lics: seq<License>, p: nat, k: nat, child: seq<nat>)
    requires p < |lics| && k <= |lics| && NoDup(child)
    ensures var r := CollectChildren(lics, p, k, child);
      && NoDup(r)
      && forall x: nat :: x in r <==> x in child || (k <= x < |lics| && IsChildOf(lics[x], lics[p]))
    decreases |lics| - k
  {
    if k < |lics| {
      if IsChildOf(lics[k], lics[p]) {
        CollectChildrenSpec(lics, p, k + 1, Put(child, k));
      } else {
        CollectChildrenSpec(lics, p, k + 1, child);
      }
    }
  }

  /** The parent and child buckets for download `d`: at most one parent, the
      first license of the download; the children are the later licenses of
      the download and every license whose non-empty parent is the parent's
      ID, each position at most once. The parent itself is among its children
      only when it names itself as its parent. */
  function Bucket(lics: seq<License>, d: int): (b: Buckets)
    ensures b.parent.Some? ==> IsFirstMatch(lics, d, b.parent.value)
    ensures b.parent.None? ==> (forall j :: 0 <= j < |lics| ==> lics[j].downloadId != d) && b.child == []
    ensures NoDup(b.child)
    ensures forall j :: 0 <= j < |b.child| ==> b.child[j] < |lics|
    ensures forall x: nat :: x in b.child <==>
      && x < |lics|
      && ((lics[x].downloadId == d && Some(x) != b.parent)
          || (b.parent.Some? && IsChildOf(lics[x], lics[b.parent.value])))
    ensures b.parent.Some? ==>
      (b.parent.value in b.child <==> IsChildOf(lics[b.parent.value], lics[b.parent.value]))
  {
    var first := CollectForDownload(lics, d, 0, Buckets(None, []));
    CollectForDownloadSpec(lics, d, 0, Buckets(None, []));
    match first.parent
    case None => first
    case Some(p) =>
      CollectChildrenSpec(lics, p, 0, first.child);
      var child := CollectChildren(lics, p, 0, first.child);
      assert forall j :: 0 <= j < |child| ==> child[j] in child;
      Buckets(first.parent, child)
  }

  /** `strpos($site, '://') !== false ? $site : 'https://' . $site`. */
  function NormalizeSiteUrl(site: string): (url: string)
    ensures Contains(url, "://")
    ensures Contains(site, "://") ==> url == site
    ensures !Contains(site, "://") ==> url == "https://" + site
  {
    if Contains(site, "://") then site
    else
      HttpsPrefixHasScheme(site);
      "https://" + site
  }

  lemma HttpsPrefixHasScheme(site: string)
    ensures Contains("https://" + site, "://")
  {
    ContainsInfix("https", "://", site);
    assert "https://" + site == "https" + "://" + site;
  }

  /** Normalising a site URL twice changes nothing more. */
  lemma NormalizeSiteUrlIdempotent(site: string)
    ensures NormalizeSiteUrl(NormalizeSiteUrl(site)) == NormalizeSiteUrl(site)
  {
  }

  /** An activated site as listed: its normalised URL and the signed link that deactivates it. */
  datatype SiteEntry = SiteEntry(url: string, deactivateLink: string)

  /** Action name of the signed deactivation link. */
  const DeactivateSiteAction: string := "deactivate_site_license"

  /** Arguments signed into the deactivation link: the license ID cast to a
      string and the site exactly as stored, not normalised. */
  function DeactivateArgs(licenseId: int, site: string): seq<(string, string)> {
    [("license_id", IntToString(licenseId)), ("site_url", site)]
  }

  /** One entry per activated site, in the stored order. `signedUrl` stands for
      `Request::get_signed_url`. */
  function SiteEntries(licenseId: int, sites: seq<string>,
                       signedUrl: (string, seq<(string, string)>) -> string): (r: seq<SiteEntry>)
    ensures |r| == |sites|
    ensures forall i :: 0 <= i < |sites| ==>
      && r[i].url == NormalizeSiteUrl(sites[i])
      && r[i].deactivateLink == signedUrl(DeactivateSiteAction, DeactivateArgs(licenseId, sites[i]))
  {
    if |sites| == 0 then []
    else
      [SiteEntry(NormalizeSiteUrl(sites[0]),
                 signedUrl(DeactivateSiteAction, DeactivateArgs(licenseId, sites[0])))]
        + SiteEntries(licenseId, sites[1..], signedUrl)
  }

  /** `$license_data` for one license; `view_url` is reduced to the license ID. */
  datatype LicenseView = LicenseView(
    licenseId: int,
    limit: int,
    key: string,
    isExpired: bool,
    isRevoked: bool,
    sites: seq<SiteEntry>,
    expiresAt: string)

  /** Describes one license; `isExpired` stands for `$license->is_expired()`. */
  function DescribeLicense(l: License, isExpired: License -> bool,
                           signedUrl: (string, seq<(string, string)>) -> string): (v: LicenseView)
    ensures v.licenseId == l.id && v.key == l.key && v.limit == l.activationLimit
    ensures v.isRevoked <==> l.postStatus == "revoked"
    ensures v.isExpired == isExpired(l) && v.expiresAt == l.expiration
    ensures |v.sites| == |l.sites|
    ensures forall i :: 0 <= i < |l.sites| ==>
      && v.sites[i].url == NormalizeSiteUrl(l.sites[i])
      && v.sites[i].deactivateLink == signedUrl(DeactivateSiteAction, DeactivateArgs(l.id, l.sites[i]))
  {
    LicenseView(l.id, l.activationLimit, l.key, isExpired(l), l.postStatus == "revoked",
                SiteEntries(l.id, l.sites, signedUrl), l.expiration)
  }
}

=== FILE: payloads.dfy ===
/** The decoded HelpScout request body, the local fixture that replaces it in
    dummy mode, and the request validation (class-endpoint.php, `parse_data`
    and `validate`). */
module Payloads {
  import opened Wrappers

  /** `ticket` object of the payload; absent keys are `None` (PHP's `isset` fails). */
  datatype Ticket = Ticket(id: Option<int>, number: Option<int>, subject: Option<string>)

  /** `customer.emails` as sent: normally a list, but `is_array` is checked
      before it is used, so a non-list value is modelled too. */
  datatype EmailsField = EmailList(items: seq<string>) | EmailScalar(text: string)

  /** `customer` object of the payload. */
  datatype Customer = Customer(
    id: Option<int>,
    fname: Option<string>,
    lname: Option<string>,
    email: Option<string>,
    emails: Option<EmailsField>)

  /** The decoded request body. A body that is not JSON decodes to `null`, which
      is the payload with neither key. */
  datatype Payload = Payload(ticket: Option<Ticket>, customer: Option<Customer>)

  /** `$data['customer']['email']`, when set. */
  function CustomerEmail(p: Payload): Option<string> {
    if p.customer.Some? then p.customer.value.email else None
  }

  /** `$data['customer']['emails']`, when set. */
  function CustomerEmailsField(p: Payload): Option<EmailsField> {
    if p.customer.Some? then p.customer.value.emails else None
  }

  /** `$data['ticket']['subject']`, when set. */
  function Subject(p: Payload): Option<string> {
    if p.ticket.Some? then p.ticket.value.subject else None
  }

  /** The payload carries `customer.email` or `customer.emails`. */
  predicate HasEmailField(p: Payload) {
    CustomerEmail(p).Some? || CustomerEmailsField(p).Some?
  }

  /** Address used by the fixture when no `HELPSCOUT_DUMMY_DATA_EMAIL` is defined. */
  const DefaultDummyEmail: string := "user@example.com"

  /** The fixed ticket and customer used in dummy mode. */
  function DummyPayload(email: string): (p: Payload)
    ensures CustomerEmail(p) == Some(email)
    ensures CustomerEmailsField(p) == Some(EmailList([email]))
    ensures Subject(p) == Some("I need help using your plugin")
  {
    Payload(
      Some(Ticket(Some(123456789), Some(12345), Some("I need help using your plugin"))),
      Some(Customer(Some(987654321), Some("Firstname"), Some("Lastname"), Some(email),
                    Some(EmailList([email])))))
  }

  /** `parse_data`: the fixture in dummy mode, otherwise the decoded body. */
  function ParseData(dummyMode: bool, dummyEmail: Option<string>, decoded: Payload): (p: Payload)
    ensures dummyMode ==> HasEmailField(p) && CustomerEmail(p) == Some(dummyEmail.GetOr(DefaultDummyEmail))
    ensures dummyMode ==>
      && Subject(p) == Some("I need help using your plugin")
      && CustomerEmailsField(p) == Some(EmailList([dummyEmail.GetOr(DefaultDummyEmail)]))
    ensures !dummyMode ==> p == decoded
  {
    if dummyMode then DummyPayload(dummyEmail.GetOr(DefaultDummyEmail)) else decoded
  }

  /** `validate`: a payload without any customer email is refused outright,
      even in dummy mode; otherwise dummy mode accepts, and a live request is
      accepted only when the signature header is present and the keyed-hash
      comparison (`Request::signature_equals`, passed in) accepts it. */
  function Validate(p: Payload, dummyMode: bool, signatureHeader: Option<string>,
                    signatureEquals: (Payload, string) -> bool): (ok: bool)
    ensures !HasEmailField(p) ==> !ok
    ensures HasEmailField(p) && dummyMode ==> ok
    ensures HasEmailField(p) && !dummyMode ==>
      (ok <==> signatureHeader.Some? && signatureEquals(p, signatureHeader.value))
  {
    if !HasEmailField(p) then false
    else if dummyMode then true
    else match signatureHeader
      case None => false
      case Some(header) => signatureEquals(p, header)
  }

  /** In dummy mode the fixture passes validation whatever the header and the
      signature check say. */
  lemma FixtureAlwaysValidates(dummyEmail: Option<string>, decoded: Payload,
                               signatureHeader: Option<string>,
                               signatureEquals: (Payload, string) -> bool)
    ensures Validate(ParseData(true, dummyEmail, decoded), true, signatureHeader, signatureEquals)
  {
  }
}

=== FILE: payments.dfy ===
/** Finding the customer's payments (class-endpoint.php, `query_customer_payments`):
    a filter may supply them; otherwise a prepared SQL statement with one `%s`
    placeholder per email address is built. Running it is the database's business. */
module Payments {
  import opened Wrappers
  import opened Strings
  import opened Payloads

  /** A row of the payments query: `p.ID`, `p.post_status`, `p.post_date`. */
  datatype PaymentRow = PaymentRow(id: int, status: string, date: string)

  /** One quoted placeholder of the `IN(...)` list, with its separator. */
  const PlaceholderItem: string := "'%s', "

  /** A single quoted placeholder. */
  const QuotedPlaceholder: string := "'%s'"

  /** Characters `rtrim` strips from the repeated list. */
  const TrimmedChars: set<char> := {',', ' '}

  /** `rtrim(str_repeat("'%s', ", $n), ", ")`. */
  function InClause(n: nat): string {
    RTrim(Repeat(PlaceholderItem, n), TrimmedChars)
  }

  /** The email condition: an `IN(...)` list for several addresses, a single
      comparison otherwise. */
  function EmailCondition(n: nat): string {
    if n > 1 then ValueIn + InClause(n) + ")"
    else ValueEquals + QuotedPlaceholder
  }

  /** Left-hand sides of the two forms of the email condition. */
  const ValueIn: string := " AND pm.meta_value IN("
  const ValueEquals: string := " AND pm.meta_value = "

  /** Fixed fragments of the statement. */
  const SelectColumns: string := "SELECT p.ID, p.post_status, p.post_date"
  const PaymentPostType: string := " WHERE p.post_type = 'edd_payment'"
  const PostJoin: string := " AND p.ID = pm.post_id"
  const EmailMetaKey: string := " AND pm.meta_key = '_edd_payment_user_email'"

  /** The head of the query up to the email condition; the table names are the
      WordPress `posts` and `postmeta` tables with their prefix. */
  function SqlHead(postsTable: string, postmetaTable: string): string {
    SelectColumns + " FROM " + postsTable + " p, " + postmetaTable + " pm"
      + PaymentPostType + PostJoin + EmailMetaKey
  }

  /** Ordering tail of the query. */
  const SqlTail: string := " GROUP BY p.ID  ORDER BY p.ID DESC"

  /** The statement handed to `$wpdb->prepare` for `n` addresses. */
  function PaymentsSql(postsTable: string, postmetaTable: string, n: nat): string {
    SqlHead(postsTable, postmetaTable) + EmailCondition(n) + SqlTail
  }

  /** Number of `%s` placeholders in a statement. */
  function Placeholders(s: string): nat
    decreases |s|
  {
    if |s| < 2 then 0
    else (if s[0] == '%' && s[1] == 's' then 1 else 0) + Placeholders(s[1..])
  }

  /** Placeholders add up over a concatenation whose left part cannot start one
      that straddles the seam. */
  lemma {:induction false} PlaceholdersAppend(a: string, b: string)
    requires |a| == 0 || a[|a| - 1] != '%'
    ensures Placeholders(a + b) == Placeholders(a) + Placeholders(b)
    decreases |a|
  {
    if |a| == 0 {
      assert a + b == b;
    } else {
      assert (a + b)[1..] == a[1..] + b;
      PlaceholdersAppend(a[1..], b);
    }
  }

  /** Wrapping text in `%`-free fragments adds no placeholder. */
  lemma PlaceholdersBetween(a: string, m: string, b: string)
    requires '%' !in a && '%' !in b
    requires |m| == 0 || m[|m| - 1] != '%'
    ensures Placeholders(a + m + b) == Placeholders(m)
  {
    NoPercentNoPlaceholders(a);
    NoPercentNoPlaceholders(b);
    if |a| > 0 {
      assert a[|a| - 1] in a;
    }
    PlaceholdersAppend(a, m);
    if |a + m| > 0 && |m| == 0 {
      assert a + m == a;
    }
    PlaceholdersAppend(a + m, b);
  }

  /** Text without a `%` holds no placeholder. */
  lemma {:induction false} NoPercentNoPlaceholders(s: string)
    requires '%' !in s
    ensures Placeholders(s) == 0
    decreases |s|
  {
    if |s| >= 2 {
      assert s[1..][..] == s[1..];
      NoPercentNoPlaceholders(s[1..]);
    }
  }

  /** A quoted placeholder counts once. */
  lemma QuotedPlaceholderCount()
    ensures Placeholders(QuotedPlaceholder) == 1
  {
    var q := QuotedPlaceholder;
    assert q[1..] == "%s'" && q[1..][1..] == "s'" && q[1..][1..][1..] == "'";
  }

  /** One item of the repeated list counts once and ends with a space. */
  lemma PlaceholderItemCount()
    ensures Placeholders(PlaceholderItem) == 1
    ensures PlaceholderItem == QuotedPlaceholder + ", "
  {
    QuotedPlaceholderCount();
    PlaceholdersAppend(QuotedPlaceholder, ", ");
    assert Placeholders(", ") == 0 by {
      assert ", "[1..] == " ";
    }
  }

  /** The repeated list holds one placeholder per repetition. */
  lemma {:induction false} RepeatPlaceholders(k: nat)
    ensures Placeholders(Repeat(PlaceholderItem, k)) == k
    ensures |Repeat(PlaceholderItem, k)| == 0 || Repeat(PlaceholderItem, k)[|Repeat(PlaceholderItem, k)| - 1] == ' '
  {
    if k > 0 {
      RepeatPlaceholders(k - 1);
      PlaceholdersAppend(Repeat(PlaceholderItem, k - 1), PlaceholderItem);
      PlaceholderItemCount();
    }
  }

  /** `rtrim` stops at the closing quote of the last placeholder. */
  lemma TrimFinalSeparator(x: string)
    requires |x| > 0 && x[|x| - 1] == '\''
    ensures RTrim(x + ", ", TrimmedChars) == x
  {
    assert (x + ", ")[..|x| + 1] == x + ",";
    assert (x + ",")[..|x|] == x;
  }

  /** `rtrim` removes exactly the final separator: the clause is `n` quoted
      placeholders separated by ", ", one placeholder per address. */
  lemma InClauseShape(n: nat)
    requires n >= 1
    ensures InClause(n) == Repeat(PlaceholderItem, n - 1) + QuotedPlaceholder
    ensures Placeholders(InClause(n)) == n
  {
    var head := Repeat(PlaceholderItem, n - 1);
    InClauseTrim(head, n);
    RepeatPlaceholders(n - 1);
    PlaceholdersAppend(head, QuotedPlaceholder);
    QuotedPlaceholderCount();
  }

  /** The repeated list minus its trailing separator. */
  lemma InClauseTrim(head: string, n: nat)
    requires n >= 1 && head == Repeat(PlaceholderItem, n - 1)
    ensures InClause(n) == head + QuotedPlaceholder
  {
    var x := head + QuotedPlaceholder;
    PlaceholderItemCount();
    assert Repeat(PlaceholderItem, n) == x + ", ";
    TrimFinalSeparator(x);
  }

  /** The fixed fragments contain no `%`. */
  lemma SelectFragmentsHaveNoPercent()
    ensures '%' !in SelectColumns && '%' !in PaymentPostType
  {
  }

  /** The fixed fragments contain no `%`. */
  lemma MetaFragmentsHaveNoPercent()
    ensures '%' !in PostJoin && '%' !in EmailMetaKey && '%' !in SqlTail
  {
  }

  /** The fixed fragments contain no `%`. */
  lemma ConditionFragmentsHaveNoPercent()
    ensures '%' !in ValueIn && '%' !in ValueEquals
  {
  }

  /** With `%`-free table names the head of the statement has no `%`. */
  lemma SqlHeadHasNoPercent(postsTable: string, postmetaTable: string)
    requires '%' !in postsTable && '%' !in postmetaTable
    ensures '%' !in SqlHead(postsTable, postmetaTable)
  {
    SelectFragmentsHaveNoPercent();
    MetaFragmentsHaveNoPercent();
  }

  /** The email condition holds one placeholder per address, or one for a single comparison. */
  lemma EmailConditionPlaceholders(n: nat)
    ensures Placeholders(EmailCondition(n)) == (if n > 1 then n else 1)
    ensures EmailCondition(n)[|EmailCondition(n)| - 1] != '%'
  {
    if n > 1 {
      InListPlaceholders(n);
    } else {
      SingleComparisonPlaceholder();
    }
  }

  /** Several addresses: the `IN(...)` list holds one placeholder each. */
  lemma InListPlaceholders(n: nat)
    requires n > 1
    ensures Placeholders(ValueIn + InClause(n) + ")") == n
  {
    InClauseShape(n);
    ConditionFragmentsHaveNoPercent();
    PlaceholdersBetween(ValueIn, InClause(n), ")");
  }

  /** One address: the single comparison holds one placeholder. */
  lemma SingleComparisonPlaceholder()
    ensures Placeholders(ValueEquals + QuotedPlaceholder) == 1
  {
    ConditionFragmentsHaveNoPercent();
    QuotedPlaceholderCount();
    PlaceholdersBetween(ValueEquals, QuotedPlaceholder, "");
    assert ValueEquals + QuotedPlaceholder + "" == ValueEquals + QuotedPlaceholder;
  }

  /** The statement has exactly one placeholder per address whenever there is
      at least one address, so `$wpdb->prepare` gets as many values as it has
      placeholders; with no address the single comparison still has one. */
  lemma PlaceholdersMatchEmails(postsTable: string, postmetaTable: string, n: nat)
    requires '%' !in postsTable && '%' !in postmetaTable
    ensures Placeholders(PaymentsSql(postsTable, postmetaTable, n)) == (if n > 1 then n else 1)
    ensures Placeholders(PaymentsSql(postsTable, postmetaTable, n)) == n <==> n >= 1
  {
    SqlHeadHasNoPercent(postsTable, postmetaTable);
    EmailConditionPlaceholders(n);
    MetaFragmentsHaveNoPercent();
    PlaceholdersBetween(SqlHead(postsTable, postmetaTable), EmailCondition(n), SqlTail);
  }

  /** `query_customer_payments`: a non-empty answer of the
      `edd_helpscout_customer_payments` filter is used as is and no query is
      run; otherwise the statement for the addresses is run (`runQuery` stands
      for `prepare` plus `get_results`) and a non-array answer counts as none. */
  function QueryCustomerPayments(emails: seq<string>, p: Payload,
                                 paymentsFilter: (seq<PaymentRow>, seq<string>, Payload) -> seq<PaymentRow>,
                                 postsTable: string, postmetaTable: string,
                                 runQuery: (string, seq<string>) -> Option<seq<PaymentRow>>)
    : (r: seq<PaymentRow>)
    ensures |paymentsFilter([], emails, p)| > 0 ==> r == paymentsFilter([], emails, p)
    ensures |paymentsFilter([], emails, p)| == 0 ==>
      r == runQuery(PaymentsSql(postsTable, postmetaTable, |emails|), emails).GetOr([])
  {
    var filtered := paymentsFilter([], emails, p);
    if |filtered| > 0 then filtered
    else
      match runQuery(PaymentsSql(postsTable, postmetaTable, |emails|), emails)
      case Some(rows) => rows
      case None => []
  }
}

=== FILE: seqs.dfy ===
/** Sequence operations behind PHP's array functions: `array_unique` and the
    keyed assignment `$a[$k] = $v` that keeps insertion order. */
module Seqs {

  /** No element occurs twice in `s`. */
  predicate NoDup<T(==,!new)>(s: seq<T>) {
    forall i, j :: 0 <= i < j < |s| ==> s[i] != s[j]
  }

  /** Position of the first occurrence of `x` in `s`. */
  function IndexOf<T(==,!new)>(s: seq<T>, x: T): (i: nat)
    requires x in s
    ensures i < |s| && s[i] == x && x !in s[..i]
  {
    if s[0] == x then 0 else 1 + IndexOf(s[1..], x)
  }

  /** A position holding `x` with no `x` before it is the first occurrence. */
  lemma IndexOfIsFirst<T(!new)>(s: seq<T>, x: T, i: nat)
    requires i < |s| && s[i] == x && x !in s[..i]
    ensures IndexOf(s, x) == i
  {
  }

  /** PHP's `array_unique` on the values: an element is kept exactly when no
      equal element stands before it. */
  function Unique<T(==,!new)>(s: seq<T>): (r: seq<T>)
    ensures NoDup(r)
    ensures forall x :: x in r <==> x in s
    ensures |r| <= |s|
  {
    if |s| == 0 then []
    else
      var init := s[..|s| - 1];
      var last := s[|s| - 1];
      assert s == init + [last];
      if last in init then Unique(init) else Unique(init) + [last]
  }

  /** The kept elements appear in the order of their first occurrences. */
  lemma {:induction false} UniqueKeepsFirstOccurrenceOrder<T(!new)>(s: seq<T>)
    ensures forall i, j :: 0 <= i < j < |Unique(s)| ==>
      IndexOf(s, Unique(s)[i]) < IndexOf(s, Unique(s)[j])
  {
    if |s| > 0 {
      var init := s[..|s| - 1];
      var last := s[|s| - 1];
      UniqueKeepsFirstOccurrenceOrder(init);
      var r0 := Unique(init);
      var r := Unique(s);
      forall i, j | 0 <= i < j < |r|
        ensures IndexOf(s, r[i]) < IndexOf(s, r[j])
      {
        assert r[i] == r0[i];
        IndexInPrefix(s, init, r0[i]);
        if j < |r0| {
          assert r[j] == r0[j];
          IndexInPrefix(s, init, r0[j]);
          assert IndexOf(init, r0[i]) < IndexOf(init, r0[j]);
        } else {
          assert r[j] == last && last !in init;
          IndexOfIsFirst(s, last, |s| - 1);
        }
      }
    }
  }

  /** Extending a sequence does not move the first occurrence of an element already in it. */
  lemma IndexInPrefix<T(!new)>(s: seq<T>, init: seq<T>, x: T)
    requires init <= s && x in init
    ensures IndexOf(s, x) == IndexOf(init, x)
  {
    var k := IndexOf(init, x);
    assert s[..k] == init[..k];
    IndexOfIsFirst(s, x, k);
  }

  /** The first element of a non-empty sequence survives de-duplication in front. */
  lemma UniqueKeepsHead<T(!new)>(s: seq<T>)
    requires |s| > 0
    ensures |Unique(s)| > 0 && Unique(s)[0] == s[0]
  {
    var r := Unique(s);
    UniqueKeepsFirstOccurrenceOrder(s);
    assert s[0] in r;
    var j :| 0 <= j < |r| && r[j] == s[0];
    assert IndexOf(s, s[0]) == 0;
  }

  /** A sequence without duplicates is left untouched, so de-duplication is idempotent. */
  lemma {:induction false} UniqueOfDistinct<T(!new)>(s: seq<T>)
    requires NoDup(s)
    ensures Unique(s) == s
  {
    if |s| > 0 {
      var init := s[..|s| - 1];
      assert NoDup(init);
      UniqueOfDistinct(init);
      assert s == init + [s[|s| - 1]];
    }
  }

  /** Keyed assignment `$a[$k] = ...` where the value is determined by the key:
      a new key goes to the end, an existing key keeps its place. */
  function Put<T(==,!new)>(s: seq<T>, x: T): (r: seq<T>)
    ensures s <= r
    ensures forall y :: y in r <==> y in s || y == x
    ensures NoDup(s) ==> NoDup(r)
  {
    if x in s then s else s + [x]
  }
}

=== FILE: strings.dfy ===
/** String helpers standing in for the PHP built-ins the endpoint calls:
    `strpos(...) !== false`, `join`, `str_repeat`, `rtrim`, the `(string)`
    integer cast and PCRE's `\s` class. */
module Strings {

  /** PCRE's `\s` without Unicode support: space, tab, line feed, vertical tab,
      form feed and carriage return. */
  predicate IsSpace(c: char) {
    c == ' ' || c == '\t' || c == '\n' || c == '\U{B}' || c == '\U{C}' || c == '\r'
  }

  /** `pat` occurs somewhere in `s` (`strpos($s, $pat) !== false`). */
  predicate Contains(s: string, pat: string)
    decreases |s|
  {
    pat <= s || (|s| > 0 && Contains(s[1..], pat))
  }

  /** An occurrence survives putting text in front of it. */
  lemma {:induction false} ContainsAfterPrefix(p: string, s: string, pat: string)
    requires Contains(s, pat)
    ensures Contains(p + s, pat)
    decreases |p|
  {
    if |p| > 0 {
      ContainsAfterPrefix(p[1..], s, pat);
      assert (p + s)[1..] == p[1..] + s;
    } else {
      assert p + s == s;
    }
  }

  /** An occurrence survives appending text after it. */
  lemma {:induction false} ContainsBeforeSuffix(s: string, q: string, pat: string)
    requires Contains(s, pat)
    ensures Contains(s + q, pat)
    decreases |s|
  {
    if pat <= s {
      assert (s + q)[..|pat|] == s[..|pat|];
    } else {
      ContainsBeforeSuffix(s[1..], q, pat);
      assert (s + q)[1..] == s[1..] + q;
    }
  }

  /** `pat` occurs in anything built as `a + pat + b`. */
  lemma ContainsInfix(a: string, pat: string, b: string)
    ensures Contains(a + pat + b, pat)
  {
    assert pat <= pat + b;
    ContainsAfterPrefix(a, pat + b, pat);
    assert a + pat + b == a + (pat + b);
  }

  /** Every character of an occurring pattern is a character of the text. */
  lemma {:induction false} ContainsKeepsChar(s: string, pat: string, c: char)
    requires Contains(s, pat) && c in pat
    ensures c in s
    decreases |s|
  {
    if pat <= s {
      var k :| 0 <= k < |pat| && pat[k] == c;
      assert s[k] == c;
    } else {
      ContainsKeepsChar(s[1..], pat, c);
      var k :| 0 <= k < |s[1..]| && s[1..][k] == c;
      assert s[k + 1] == c;
    }
  }

  /** PHP's `substr($s, $start)` for a non-negative start: the suffix from
      `start`, or the empty string once `start` runs past the end. */
  function Substr(s: string, start: nat): (r: string)
    ensures |r| <= |s| && r == s[|s| - |r|..]
    ensures start <= |s| ==> |r| == |s| - start
    ensures start > |s| ==> r == ""
  {
    if start <= |s| then s[start..] else ""
  }

  /** PHP's `join($sep, $parts)`. */
  function Join(sep: string, parts: seq<string>): string
  {
    if |parts| == 0 then ""
    else if |parts| == 1 then parts[0]
    else parts[0] + sep + Join(sep, parts[1..])
  }

  /** PHP's `str_repeat($u, $n)`. */
  function Repeat(u: string, n: nat): (r: string)
    ensures |r| == n * |u|
  {
    if n == 0 then "" else Repeat(u, n - 1) + u
  }

  /** PHP's `rtrim($s, $chars)`: drops trailing characters drawn from `chars`. */
  function RTrim(s: string, chars: set<char>): (r: string)
    ensures r <= s
    ensures |r| == 0 || r[|r| - 1] !in chars
    ensures forall i :: |r| <= i < |s| ==> s[i] in chars
  {
    if |s| > 0 && s[|s| - 1] in chars then RTrim(s[..|s| - 1], chars) else s
  }

  /** Decimal digit for `d < 10`. */
  function Digit(d: nat): char
    requires d < 10
  {
    "0123456789"[d]
  }

  /** Decimal representation of a natural number, without leading zeros. */
  function NatToString(n: nat): (r: string)
    ensures |r| > 0
    decreases n
  {
    if n < 10 then [Digit(n)] else NatToString(n / 10) + [Digit(n % 10)]
  }

  /** PHP's `(string)` cast of an integer. */
  function IntToString(i: int): string
  {
    if i < 0 then "-" + NatToString(-i) else NatToString(i)
  }
}

=== FILE: wrappers.dfy ===
/** Optional values and success-or-error results, used wherever the endpoint
    either finds something or falls back. */
module Wrappers {

  /** A value that may be absent (PHP's `isset` failing, a lookup returning false). */
  datatype Option<+T> = None | Some(value: T) {

    /** The carried value, or `default` when there is none. */
    function GetOr(default: T): T {
      match this
      case Some(v) => v
      case None => default
    }
  }

  /** Either a value or an error; the endpoint's errors are the messages it responds with. */
  datatype Result<+T, +E> = Success(value: T) | Failure(error: E)
}
